=== FILE: README.md ===
# clang-tidy linter action, modelled in Dafny

The action lints the C++ sources a pull request changes. For each changed
`.cpp`/`.cc` file whose status is not "deleted" it runs clang-tidy, which is meant to
leave a YAML export (`<file>.replacements.yml`) listing its diagnostics by byte
offset (see "## Left out" on the option's spelling).
The action converts each offset to a line and column of the source and prints
one `::warning file=…,line=…,col=…::…` workflow command per diagnostic whose
offset resolves, until an entry without a `DiagnosticMessage` stops the loop. A file
with diagnostics rejects its promise with `<n> issues detected in <main source
file>`. The run fails when any file rejects and prints `done` otherwise.

Everything the action does through I/O becomes an input here:

- clang-tidy's run, the export file and its parsing, and reading the source
  become a `FileInputs` value per file.
- The `line-column` package's `fromIndex` becomes an arbitrary function
  `Resolver = int -> Option<Location>`.
- The pull request's file list becomes a sequence of `ChangedFile`.

The model is made of pure functions over immutable datatypes:

| module | file | models |
|---|---|---|
| `ChangedFiles` | changed_files.dfy | the filter in `changed` (index.js:69-75) |
| `Annotations` | annotations.dfy | the warning line of index.js:48, plus a reader that inverts it |
| `FileCheck` | file_check.dfy | `check` (index.js:14-56): outcome, annotations, error paths |
| `Run` | run.dfy | `tidy` and `main` (index.js:78-93): one check per file, `Promise.all` |
| `LineIndex` | line_index.dfy | an assumed reference for `fromIndex` (not code of this repository) |
| `Scenarios` | scenarios.dfy | worked examples end to end |
| `Text`, `Wrappers` | text.dfy, wrappers.dfy | suffix tests, decimal rendering and its parser; `Option` |

Each `check` runs its promise executor synchronously: `spawnSync`, `existsSync`
and `readFileSync` are all blocking. So the files are checked, and their lines
printed, one after another in list order. `Promise.all` then rejects with the
first rejection in list order. `Run.Main` models exactly this.

### Behaviour worth noting

- An entry without a `DiagnosticMessage` throws inside the `forEach`. The
  annotations printed before it stay printed, the later ones are not printed,
  and the file resolves (`FileCheck.CheckKeepsEarlierAnnotations`).
- A failed run prints one reason only: that of the first rejecting file in list
  order (`Run.Main`). Other files' rejections are not printed.
- Offsets are 0-based and positions 1-based. In `"int x;\nint y;\n"`, offset 7
  is line 2, column 1, and the `y` at offset 11 is line 2, column 5
  (`LineIndex.FromIndexExample`).
- Every entry's `FileOffset` is resolved against the content of the `.cpp`
  file being checked (index.js:38, 45), even when its `FilePath` names another
  file, such as a header. Such an annotation names the header but carries a
  line and column computed from the `.cpp` file
  (`Scenarios.HeaderDiagnosticScenario`).

## Model

| member | source | states |
|---|---|---|
| `ChangedFiles.ChangedSources` | index.js:70-75 | the filter as written: a name is listed iff some entry with that name is not "deleted" and ends in `.cpp` or `.cc` |
| `ChangedFiles.LintableFiles` | index.js:69-75 | the corrected filter: a name is listed iff some entry with that name is neither "deleted" nor "removed" and ends in `.cpp` or `.cc` |
| `ChangedFiles.Select` | index.js:70-75 | at most one name per listed entry, and every name kept ends in `.cpp` or `.cc` |
| `ChangedFiles.SelectMembership` | index.js:70-75 | a name is kept iff some entry with that name has a non-excluded status and a C++ suffix |
| `ChangedFiles.SelectAppend` | index.js:70-75 | filtering a concatenation gives the two filtered parts concatenated, so listed order is kept |
| `ChangedFiles.SelectPrefix` | index.js:70-75 | scanning in list order, each entry appends its name exactly when it passes both tests |
| `ChangedFiles.RemovedSourceIsLinted` | index.js:69-72 | as written, a deleted `a.cpp`, which the API lists as "removed", is still linted |
| `ChangedFiles.LintableFilesExcludeDeleted` | index.js:69-75 | with the corrected filter, every linted name comes from a C++ entry that is neither "deleted" nor "removed" |
| `ChangedFiles.FiltersAgreeWithoutRemoved` | index.js:70-75 | when no entry is "removed", the corrected filter and the filter as written select the same names |
| `Annotations.Format` | index.js:48 | the line starts with `::warning file=<path>,line=` and ends with `::<message>` |
| `Annotations.ParseFormat` | index.js:48 | for a path without commas, the printed line can be read back to the same path, line, column and message |
| `Annotations.FormatInjective` | index.js:48 | two annotations with comma-free paths print the same line only if they are equal |
| `Text.ParseIntOfIntToString` | index.js:48 | the decimal rendering of a line or column number reads back to the same number |
| `Text.ParseNatOfNatToString` | index.js:51 | the decimal rendering of the issue count reads back to the same count |
| `FileCheck.Emit` | index.js:43-49 | never more annotations than entries; stops by throwing iff some entry lacks a message; each annotation comes from an entry whose offset resolves |
| `FileCheck.EmitAppend` | index.js:43-49 | on entries that all have messages, the loop prints each part's annotations in turn, so export order is kept |
| `FileCheck.EmitSingle` | index.js:43-49 | one entry prints its annotation iff it has a message and its offset resolves, and throws iff the message is missing |
| `FileCheck.EmitComplete` | index.js:43-49 | on entries that all have messages, every entry whose offset resolves is printed |
| `FileCheck.EmitAllResolved` | index.js:43-49 | when all n offsets resolve, exactly n annotations are printed, the k-th from the k-th entry |
| `FileCheck.EmitNoneResolved` | index.js:45-47 | entries whose offsets do not resolve print nothing |
| `FileCheck.EmitStopsAtMalformed` | index.js:43-49 | the loop stops at the first entry without a message and keeps what the entries before it printed |
| `FileCheck.Reason` | index.js:51 | the rejection message reads back, through `ParseReason`, to exactly the issue count and the main source file; it ends with ` issues detected in <main source file>` |
| `FileCheck.ReasonOfParseReason` | index.js:51 | any message that reads back to a count and a file is the rejection message for them, so the message is fixed by the two |
| `FileCheck.Check` | index.js:14-56 | no export means success with no output; rejection iff the export, its diagnostics and the source are all usable and every entry has a message; a rejection's message reads back to the count of all entries and the main source file; every annotation comes from a resolving entry |
| `FileCheck.CheckDegradesToSuccess` | index.js:19-55 | no export, an unparsable or null export, a missing `Diagnostics` field, or an unreadable source each give success with no annotation |
| `FileCheck.CheckEmptyDiagnostics` | index.js:34-35 | an empty `Diagnostics` list gives success with no annotation, whatever the source |
| `FileCheck.CheckReportsInOrder` | index.js:43-51 | a usable non-empty export rejects with the count of all entries and prints exactly the resolving entries, in export order |
| `FileCheck.CheckCountsUnresolved` | index.js:43-51 | if no offset resolves, the file is still rejected with the full count, and nothing is printed |
| `FileCheck.CheckKeepsEarlierAnnotations` | index.js:43-55 | an entry without a message ends the loop; the file resolves, and what was printed before that entry stays printed |
| `Run.Tidy` | index.js:78-83 | an empty list gives one resolved, silent outcome; otherwise there is one check per file, in order |
| `Run.Reduce` | index.js:87-92 | the run is done iff every outcome resolved; otherwise it fails with the reason of the first rejection in list order |
| `Run.Printed` | index.js:82 | every annotation of every check is printed, and every printed line is the line of some check's annotation |
| `Run.PrintedAppend` | index.js:82 | the output of several checks is each check's output in list order |
| `Run.PrintedSingle` | index.js:43-49 | one check prints exactly its annotations' lines, in order |
| `Run.Main` | index.js:85-93 | the run is done iff every file's check resolves, exactly when the last line is `done`; the lines before the last are exactly the checks' output, file after file (`Printed`, fixed by `PrintedAppend` and `PrintedSingle`); each file's annotations are printed whatever the other files' outcomes; every line before the last is some file's annotation; a failed run's last line is the reason of the first file in list order whose check rejects |
| `Run.MainWithoutFiles` | index.js:80-88 | with no file to lint, the run prints only `done` and succeeds |
| `Run.Lint` | index.js:69-92 | for any set of excluded statuses, the run over the selected entries is done iff every selected entry's check resolves |
| `Run.ActionAsWritten` | index.js:69-92 | the action as written: the run is done iff the check of every C++ entry whose status is not "deleted" resolves |
| `Run.Action` | index.js:69-92 | the corrected action: the run is done iff the check of every C++ entry that is neither "deleted" nor "removed" resolves |
| `Run.LintIgnoresUnselected` | index.js:70-82 | for any set of excluded statuses, adding an entry the filter drops does not change the run |
| `Run.LintWithoutSources` | index.js:75-88 | for any set of excluded statuses, a change without selected sources prints only `done` and succeeds |
| `Run.RemovedSourceFailsRun` | index.js:69-91 | a "removed" `a.cpp` that is still readable on disk and has an export fails the action as written and passes the corrected action |
| `Run.AsWrittenMatchesCorrected` | index.js:38-92 | when no "removed" file can be read, the action as written gives the same log and verdict as the corrected action |
| `Scenarios.HeaderDiagnosticScenario` | index.js:38-48 | worked example: an entry whose `FilePath` is `a.h` is printed under `a.h` at the line and column that its offset has in `a.cpp` |
| `LineIndex.FromIndex` | index.js:45 | assumed resolver contract: a position exists iff the offset is within the content, and its line and column are at least 1 |
| `LineIndex.ToIndexFromIndex` | index.js:45 | assumed resolver contract: counting lines and columns back from the reported position gives the offset again, and no newline lies between the start of the reported line and the offset, so the offset is on the line reported |
| `Scenarios.TwoIssuesScenario` | index.js:43-51 | worked example: one resolvable and one unresolvable diagnostic print one line at line 2, column 5, and reject with "2 issues detected in a.cpp" |
| `Scenarios.MalformedSecondEntryScenario` | index.js:43-55 | worked example: a second entry without a message keeps the first annotation, and the file resolves |

## Left out

- clang-tidy's invocation (index.js:15-17) is external process I/O. Whether
  the export exists is an input. The option passed at line 17 is spelled
  `--export-files`, while the comment at line 16 says `--export-fixes`, which
  is clang-tidy's option. If clang-tidy rejects the unknown option, no export
  appears and every check resolves silently; nothing here was executed to
  confirm it. The model does not depend on either spelling: the export's
  existence is an input.
- `fs.existsSync`, `fs.readFileSync` and `js-yaml` (index.js:20, 26, 30, 38)
  are I/O and a foreign parser. Their results are the `FileInputs` fields.
  Reading or parsing that throws is `Unparsable`. An empty document (which
  parses to `undefined`), a document that is not an object, or one without a
  list-valued `Diagnostics` field is `Document(_, None)`.
  Each of these resolves without printing. Most reach the catch at lines
  52-55; a `Diagnostics` value of length 0 that is not a list (such as `''`)
  resolves at line 35 instead. The `=== null` tests at
  lines 27 and 39 cannot succeed, because a failed read throws first.
- The `line-column` package (index.js:7, 38, 45) is not part of this model.
  `FileCheck` works for any resolver. `LineIndex` is an assumed contract, not
  code of this repository. That package counts columns in UTF-16 code units,
  while clang-tidy's offsets count bytes. Characters stand for both here, so
  offsets in non-ASCII sources are not modelled.
- The GitHub API call, token lookup and context reads (index.js:60-67) are
  network and environment access. The listed files are an input. A failing
  API call rejects `main` unhandled, and that is not modelled.
- `core.info` logging (index.js:53) is not modelled. `core.setFailed` is the
  `Failed` run outcome. The `console.log(err)` line is the last line of
  `RunResult.log`.
- Promise scheduling is not modelled beyond the synchronous order argued above.
- FileCheck.Emit: a `FilePath` or `Message` field that is absent prints as
  `undefined` in JavaScript, and so does an absent `MainSourceFile` in the
  rejection message. The model takes these fields as strings. A
  non-numeric `FileOffset` is folded into the resolver, which returns `None`.
- Annotations.ParseFormat: the round trip is stated only for paths without a
  comma. A path with a comma makes the printed line ambiguous, because nothing
  is escaped.
- Run.Tidy: a file listed twice gets the same inputs both times. The model does
  not cover a second clang-tidy run overwriting the first run's export.

## Findings

| source | as written | input that shows it | evidently intended | confidence | as-written member | corrected member |
|---|---|---|---|---|---|---|
| index.js:71 | `item.status !== "deleted"` drops only entries whose status is "deleted" | `[ChangedFile("a.cpp", "removed")]`: the pull-request files API reports a deleted file with the status "removed", and the filter keeps `a.cpp` | skip files the pull request deleted, as the comment at line 69 says | medium (depends on the API's status vocabulary); not executed | `ChangedFiles.RemovedSourceIsLinted` | `ChangedFiles.LintableFilesExcludeDeleted` |

The filter as written is `ChangedFiles.ChangedSources`. The corrected filter
is `ChangedFiles.LintableFiles`, which drops both "deleted" and "removed".
`Run.ActionAsWritten` runs the filter as written and `Run.Action` the
corrected one. The two filters agree on any list without a "removed" entry
(`ChangedFiles.FiltersAgreeWithoutRemoved`). A deleted file is normally absent
from the checkout, so reading it at index.js:38 throws and the catch resolves,
whether or not an old export exists. The run is then the corrected one
(`Run.AsWrittenMatchesCorrected`), and the wrong status costs one wasted
clang-tidy run and one `core.info` line. The run fails only when the deleted
file is still readable and has an export, for instance in a checkout that still
holds it (`Run.RemovedSourceFailsRun`).

=== FILE: annotations.dfy ===
/** The workflow-command line the action prints for one diagnostic
    (index.js:48), and a reader for that line that proves the rendering loses
    nothing as long as the file path holds no comma. */
module Annotations {
  import opened Wrappers
  import opened Text

  /** A 1-based position, as the offset resolver reports it. */
  datatype Location = Location(line: int, col: int)

  /** One `::warning` annotation: where it points and what it says. */
  datatype Annotation = Annotation(filePath: string, line: int, col: int, message: string)

  const Prefix := "::warning file="

  /** `::warning file=<path>,line=<line>,col=<col>::<message>`, with the numbers in
      decimal and path and message verbatim (nothing is escaped). */
  function Format(a: Annotation): (s: string)
    ensures StartsWith(s, Prefix + a.filePath + ",line=")
    ensures EndsWith(s, "::" + a.message)
  {
    Prefix + a.filePath + ",line=" + IntToString(a.line) + ",col=" + IntToString(a.col) + "::" + a.message
  }

  /** Reads an annotation line back: the path runs up to the first comma, the
      line number up to the next comma, the column up to the next colon, and the
      message is everything after the `::` that follows. */
  function Parse(s: string): Option<Annotation> {
    if !StartsWith(s, Prefix) then None
    else
      var t := s[|Prefix|..];
      var p := IndexOf(t, ',');
      match ParseLine(t[p..])
      case None => None
      case Some(rest) => Some(Annotation(t[..p], rest.0, rest.1, rest.2))
  }

  /** `,line=<line>` followed by what `ParseCol` reads. */
  function ParseLine(s: string): Option<(int, int, string)> {
    if !StartsWith(s, ",line=") then None
    else
      var t := s[6..];
      var q := IndexOf(t, ',');
      match (ParseInt(t[..q]), ParseCol(t[q..]))
      case (Some(line), Some(rest)) => Some((line, rest.0, rest.1))
      case _ => None
  }

  /** `,col=<col>::<message>` */
  function ParseCol(s: string): Option<(int, string)> {
    if !StartsWith(s, ",col=") then None
    else
      var t := s[5..];
      var k := IndexOf(t, ':');
      var afterCol := t[k..];
      match ParseInt(t[..k])
      case Some(col) =>
        if StartsWith(afterCol, "::") then Some((col, afterCol[2..])) else None
      case None => None
  }

  lemma NumberHasNo(i: int, c: char)
    requires !IsDigit(c) && c != '-'
    ensures c !in IntToString(i)
  {
  }

  lemma ParseColFormat(col: int, message: string)
    ensures ParseCol(",col=" + IntToString(col) + "::" + message) == Some((col, message))
  {
    var cs := IntToString(col);
    var msgPart := "::" + message;
    var s := ",col=" + cs + "::" + message;
    assert s == ",col=" + (cs + msgPart);
    assert s[5..] == cs + msgPart;
    NumberHasNo(col, ':');
    IndexOfSplit(cs, ':', msgPart);
    ParseIntOfIntToString(col);
    assert msgPart[2..] == message;
  }

  lemma ParseLineFormat(line: int, col: int, message: string)
    ensures ParseLine(",line=" + IntToString(line) + ",col=" + IntToString(col) + "::" + message)
         == Some((line, col, message))
  {
    var ls := IntToString(line);
    var colPart := ",col=" + IntToString(col) + "::" + message;
    var s := ",line=" + ls + ",col=" + IntToString(col) + "::" + message;
    assert s == ",line=" + (ls + colPart);
    assert s[6..] == ls + colPart;
    NumberHasNo(line, ',');
    IndexOfSplit(ls, ',', colPart);
    ParseIntOfIntToString(line);
    ParseColFormat(col, message);
  }

  /** `Parse` splits the text after the prefix at the first comma and hands
      the rest to `ParseLine`. */
  lemma ParseSplit(path: string, rest: string)
    requires ',' !in path && |rest| > 0 && rest[0] == ','
    ensures Parse(Prefix + path + rest)
         == (match ParseLine(rest)
             case None => None
             case Some(r) => Some(Annotation(path, r.0, r.1, r.2)))
  {
    var s := Prefix + path + rest;
    assert s == Prefix + (path + rest);
    assert s[..|Prefix|] == Prefix;
    var t := s[|Prefix|..];
    assert t == path + rest;
    IndexOfSplit(path, ',', rest);
  }

  /** The printed line determines the annotation whenever the path has no comma. */
  lemma ParseFormat(a: Annotation)
    requires ',' !in a.filePath
    ensures Parse(Format(a)) == Some(a)
  {
    var linePart := ",line=" + IntToString(a.line) + ",col=" + IntToString(a.col) + "::" + a.message;
    assert Format(a) == Prefix + a.filePath + linePart;
    ParseLineFormat(a.line, a.col, a.message);
    ParseSplit(a.filePath, linePart);
  }

  /** Hence two annotations over comma-free paths print the same line only if equal. */
  lemma FormatInjective(a: Annotation, b: Annotation)
    requires ',' !in a.filePath && ',' !in b.filePath
    requires Format(a) == Format(b)
    ensures a == b
  {
    ParseFormat(a);
    ParseFormat(b);
  }
}

=== FILE: changed_files.dfy ===
/** Which files of a pull request the action lints (`changed`, index.js:59-76):
    the `(filename, status)` entries the pull-request API lists are reduced to
    the names of the C++ sources whose status is not excluded, in listed order. */
module ChangedFiles {
  import opened Text

  /** One entry of the pull request's file list. */
  datatype ChangedFile = ChangedFile(filename: string, status: string)

  /** The file-name suffixes the action lints (index.js:75). */
  predicate IsSourceName(name: string) {
    EndsWith(name, ".cpp") || EndsWith(name, ".cc")
  }

  /** An entry is linted when its status is not one of `excluded` and its name is a source. */
  predicate Selected(f: ChangedFile, excluded: set<string>) {
    f.status !in excluded && IsSourceName(f.filename)
  }

  /** Names of the selected entries, in listed order.  The status filter, the map to
      file names and the extension filter of index.js:70-75 are fused into one pass:
      each stage keeps order, and a name survives exactly when its entry passes both
      tests. */
  function Select(entries: seq<ChangedFile>, excluded: set<string>): (r: seq<string>)
    ensures |r| <= |entries|
    ensures forall k :: 0 <= k < |r| ==> IsSourceName(r[k])
    decreases |entries|
  {
    if |entries| == 0 then []
    else if Selected(entries[0], excluded) then [entries[0].filename] + Select(entries[1..], excluded)
    else Select(entries[1..], excluded)
  }

  /** The statuses `changed` drops as written (index.js:71). */
  const AsWrittenExcluded: set<string> := {"deleted"}

  /** `changed` as written: a name is listed exactly when some entry carrying it
      is not "deleted" and names a C++ source. */
  function ChangedSources(entries: seq<ChangedFile>): (r: seq<string>)
    ensures forall name :: name in r <==>
              exists i :: && 0 <= i < |entries| && entries[i].filename == name
                          && entries[i].status != "deleted" && IsSourceName(name)
  {
    SelectMembers(entries, AsWrittenExcluded);
    Select(entries, AsWrittenExcluded)
  }

  /** The pull-request API reports a file deleted by the change with the status
      "removed"; excluding it as well is what the comment at index.js:69 asks for. */
  const Excluded: set<string> := {"deleted", "removed"}

  /** `changed` with deleted files excluded under the status the API really uses:
      a name is listed exactly when some entry carrying it is neither "deleted"
      nor "removed" and names a C++ source. */
  function LintableFiles(entries: seq<ChangedFile>): (r: seq<string>)
    ensures forall name :: name in r <==>
              exists i :: && 0 <= i < |entries| && entries[i].filename == name
                          && entries[i].status != "deleted" && entries[i].status != "removed"
                          && IsSourceName(name)
  {
    SelectMembers(entries, Excluded);
    Select(entries, Excluded)
  }

  /** Selecting from a concatenation selects from each part, in order; with
      `SelectSingle` this pins down both content and order of the result. */
  lemma {:induction false} SelectAppend(a: seq<ChangedFile>, b: seq<ChangedFile>, excluded: set<string>)
    ensures Select(a + b, excluded) == Select(a, excluded) + Select(b, excluded)
    decreases |a|
  {
    if |a| > 0 {
      assert (a + b)[0] == a[0];
      assert (a + b)[1..] == a[1..] + b;
      SelectAppend(a[1..], b, excluded);
    } else {
      assert a + b == b;
    }
  }

  lemma SelectSingle(f: ChangedFile, excluded: set<string>)
    ensures Select([f], excluded) == (if Selected(f, excluded) then [f.filename] else [])
  {
    assert [f][1..] == [];
  }

  /** A name is selected exactly when some entry carrying it passes both tests. */
  lemma {:induction false} SelectMembership(entries: seq<ChangedFile>, excluded: set<string>, name: string)
    ensures name in Select(entries, excluded)
        <==> exists i :: 0 <= i < |entries| && entries[i].filename == name && Selected(entries[i], excluded)
    decreases |entries|
  {
    if |entries| > 0 {
      var rest := entries[1..];
      SelectMembership(rest, excluded, name);
      if name in Select(rest, excluded) {
        var i :| 0 <= i < |rest| && rest[i].filename == name && Selected(rest[i], excluded);
        assert entries[i + 1] == rest[i];
      }
      if exists i :: 0 <= i < |entries| && entries[i].filename == name && Selected(entries[i], excluded) {
        var i :| 0 <= i < |entries| && entries[i].filename == name && Selected(entries[i], excluded);
        if i > 0 {
          assert rest[i - 1] == entries[i];
        }
      }
    }
  }

  /** `SelectMembership` for every name at once. */
  lemma SelectMembers(entries: seq<ChangedFile>, excluded: set<string>)
    ensures forall name :: name in Select(entries, excluded) <==>
              exists i :: 0 <= i < |entries| && entries[i].filename == name && Selected(entries[i], excluded)
  {
    forall name
      ensures name in Select(entries, excluded) <==>
              exists i :: 0 <= i < |entries| && entries[i].filename == name && Selected(entries[i], excluded)
    {
      SelectMembership(entries, excluded, name);
    }
  }

  /** Scanning the list in order, each entry appends its name exactly when it
      passes: the result is the subsequence of listed names whose entries pass. */
  lemma SelectPrefix(entries: seq<ChangedFile>, excluded: set<string>, n: nat)
    requires n < |entries|
    ensures Select(entries[..n + 1], excluded)
         == Select(entries[..n], excluded) + (if Selected(entries[n], excluded) then [entries[n].filename] else [])
  {
    assert entries[..n + 1] == entries[..n] + [entries[n]];
    SelectAppend(entries[..n], [entries[n]], excluded);
    SelectSingle(entries[n], excluded);
  }

  /** A deleted C++ source slips through the filter as written, because the API
      reports it as "removed". */
  lemma RemovedSourceIsLinted()
    ensures ChangedSources([ChangedFile("a.cpp", "removed")]) == ["a.cpp"]
    ensures LintableFiles([ChangedFile("a.cpp", "removed")]) == []
  {
    var f := ChangedFile("a.cpp", "removed");
    assert EndsWith(f.filename, ".cpp") by {
      assert f.filename[|f.filename| - 4..] == ".cpp";
    }
    SelectSingle(f, AsWrittenExcluded);
    SelectSingle(f, Excluded);
  }

  /** The corrected filter never lints an entry the change deleted, under either status. */
  lemma LintableFilesExcludeDeleted(entries: seq<ChangedFile>, name: string)
    requires name in LintableFiles(entries)
    ensures exists i :: 0 <= i < |entries| && entries[i].filename == name
              && entries[i].status != "deleted" && entries[i].status != "removed"
              && IsSourceName(name)
  {
    SelectMembership(entries, Excluded, name);
  }

  /** When no entry is "removed", the two filters agree. */
  lemma {:induction false} FiltersAgreeWithoutRemoved(entries: seq<ChangedFile>)
    requires forall i :: 0 <= i < |entries| ==> entries[i].status != "removed"
    ensures LintableFiles(entries) == ChangedSources(entries)
    decreases |entries|
  {
    if |entries| > 0 {
      FiltersAgreeWithoutRemoved(entries[1..]);
    }
  }
}

=== FILE: file_check.dfy ===
/** One file's check (`check`, index.js:9-57) with its I/O replaced by inputs.
    clang-tidy has already run; what it left behind, what parsing that produced
    and whether the source could be read are given, and the check decides the
    file's outcome and the annotations it prints on the way. */
module FileCheck {
  import opened Wrappers
  import opened Text
  import opened Annotations

  /** The `DiagnosticMessage` record of one exported diagnostic. */
  datatype DiagnosticMessage = DiagnosticMessage(filePath: string, fileOffset: int, message: string)

  /** One element of the export's `Diagnostics` list; `None` when the element has
      no `DiagnosticMessage`, so that reading its `FileOffset` throws. */
  datatype Diagnostic = Diagnostic(diagnosticMessage: Option<DiagnosticMessage>)

  /** What reading and parsing `<file>.replacements.yml` produced. */
  datatype Replacements =
      /** reading or YAML parsing threw */
    | Unparsable
      /** the document parsed to `null` */
    | NullDocument
      /** a document; `diagnostics` is `None` when the `Diagnostics` field is
          missing or is not a list */
    | Document(mainSourceFile: string, diagnostics: Option<seq<Diagnostic>>)

  /** `position.fromIndex`: a 0-based offset to a 1-based position, or `None`.
      Implemented by the `line-column` package, outside this repository. */
  type Resolver = int -> Option<Location>

  /** Everything the check learns from the file system for one file:
      whether the export exists, its parsed content, and the source's resolver
      (`None` when the source cannot be read). */
  datatype FileInputs = FileInputs(exportExists: bool, replacements: Replacements, source: Option<Resolver>)

  /** How the file's promise settles. */
  datatype Outcome = Resolved | Rejected(reason: string)

  /** The settled outcome and the annotations printed before it settled, in order. */
  datatype CheckResult = CheckResult(outcome: Outcome, annotations: seq<Annotation>)

  /** What the `forEach` of index.js:43-49 printed, and whether it stopped by throwing. */
  datatype Emission = Emission(annotations: seq<Annotation>, threw: bool)

  function Annotate(m: DiagnosticMessage, loc: Location): Annotation {
    Annotation(m.filePath, loc.line, loc.col, m.message)
  }

  /** Diagnostic `d` resolves under `fromIndex` and is printed as `a`. */
  predicate Yields(d: Diagnostic, fromIndex: Resolver, a: Annotation) {
    && d.diagnosticMessage.Some?
    && fromIndex(d.diagnosticMessage.value.fileOffset).Some?
    && a == Annotate(d.diagnosticMessage.value, fromIndex(d.diagnosticMessage.value.fileOffset).value)
  }

  /** No element of the list lacks its `DiagnosticMessage`. */
  predicate WellFormed(ds: seq<Diagnostic>) {
    forall i :: 0 <= i < |ds| ==> ds[i].diagnosticMessage.Some?
  }

  /** The loop of index.js:43-49: each entry's offset is resolved; an unresolved
      entry is skipped, a resolved one printed; an entry without a message throws
      and ends the loop, keeping what was already printed. */
  function Emit(ds: seq<Diagnostic>, fromIndex: Resolver): (r: Emission)
    ensures |r.annotations| <= |ds|
    ensures r.threw <==> !WellFormed(ds)
    ensures forall a :: a in r.annotations ==> exists i :: 0 <= i < |ds| && Yields(ds[i], fromIndex, a)
    decreases |ds|
  {
    if |ds| == 0 then Emission([], false)
    else match ds[0].diagnosticMessage
      case None => Emission([], true)
      case Some(m) =>
        var rest := Emit(ds[1..], fromIndex);
        assert forall a :: a in rest.annotations ==> exists i :: 0 <= i < |ds| && Yields(ds[i], fromIndex, a) by {
          forall a | a in rest.annotations
            ensures exists i :: 0 <= i < |ds| && Yields(ds[i], fromIndex, a)
          {
            var i :| 0 <= i < |ds[1..]| && Yields(ds[1..][i], fromIndex, a);
            assert ds[i + 1] == ds[1..][i];
          }
        }
        assert WellFormed(ds) <==> WellFormed(ds[1..]) by {
          if WellFormed(ds[1..]) {
            assert forall i :: 1 <= i < |ds| ==> ds[i] == ds[1..][i - 1];
          }
        }
        match fromIndex(m.fileOffset)
        case None => rest
        case Some(loc) => Emission([Annotate(m, loc)] + rest.annotations, rest.threw)
  }

  const IssuesDetectedIn := " issues detected in "

  /** The rejection message of index.js:51: `<n> issues detected in <main source file>`.
      `ParseReason` reads both fields back, and by `ReasonOfParseReason` no other
      message reads back to them. */
  function Reason(n: nat, mainSourceFile: string): (s: string)
    ensures EndsWith(s, IssuesDetectedIn + mainSourceFile)
    ensures ParseReason(s) == Some((n, mainSourceFile))
  {
    var digits := NatToString(n);
    var tail := IssuesDetectedIn + mainSourceFile;
    LeadingDigitsSplit(digits, tail);
    assert (digits + tail)[..|digits|] == digits;
    assert (digits + tail)[|digits|..] == tail;
    assert tail[..|IssuesDetectedIn|] == IssuesDetectedIn;
    assert tail[|IssuesDetectedIn|..] == mainSourceFile;
    ParseNatOfNatToString(n);
    digits + tail
  }

  /** Reads a rejection message back: a count as `${n}` renders it (no leading
      zero), then ` issues detected in `, then the main source file. */
  function ParseReason(s: string): Option<(nat, string)> {
    var k := LeadingDigits(s);
    var rest := s[k..];
    if !Canonical(s[..k]) || !StartsWith(rest, IssuesDetectedIn) then None
    else Some((ParseNat(s[..k]), rest[|IssuesDetectedIn|..]))
  }

  /** A message that reads back to a count and a file is the rejection message
      for them: `Reason` is the only way to produce that reading. */
  lemma ReasonOfParseReason(s: string)
    requires ParseReason(s).Some?
    ensures s == Reason(ParseReason(s).value.0, ParseReason(s).value.1)
  {
    var k := LeadingDigits(s);
    var rest := s[k..];
    NatToStringOfParseNat(s[..k]);
    assert rest == IssuesDetectedIn + rest[|IssuesDetectedIn|..];
    assert s == s[..k] + rest;
  }

  /** The export's diagnostics when every step before the loop succeeds. */
  predicate Reportable(inputs: FileInputs) {
    && inputs.exportExists
    && inputs.replacements.Document?
    && inputs.replacements.diagnostics.Some?
    && |inputs.replacements.diagnostics.value| > 0
    && inputs.source.Some?
  }

  /** `check` (index.js:14-56).  The two `=== null` tests (lines 27 and 39) can
      only fail by throwing earlier, so they are folded into `Unparsable` and an
      unreadable source; every thrown exception lands in the catch of lines
      52-55 and resolves. */
  function Check(inputs: FileInputs): (r: CheckResult)
    ensures !inputs.exportExists ==> r == CheckResult(Resolved, [])
    ensures r.outcome.Rejected? <==>
              Reportable(inputs) && WellFormed(inputs.replacements.diagnostics.value)
    ensures r.outcome.Rejected? ==>
              EndsWith(r.outcome.reason, IssuesDetectedIn + inputs.replacements.mainSourceFile)
    ensures r.outcome.Rejected? ==>
              ParseReason(r.outcome.reason)
                == Some((|inputs.replacements.diagnostics.value|, inputs.replacements.mainSourceFile))
    ensures r.annotations != [] ==> Reportable(inputs)
    ensures Reportable(inputs) ==>
              forall a :: a in r.annotations ==>
                exists i :: 0 <= i < |inputs.replacements.diagnostics.value|
                  && Yields(inputs.replacements.diagnostics.value[i], inputs.source.value, a)
  {
    if !inputs.exportExists then CheckResult(Resolved, [])
    else match inputs.replacements
      case Unparsable => CheckResult(Resolved, [])
      case NullDocument => CheckResult(Resolved, [])
      case Document(mainSourceFile, diagnostics) =>
        match diagnostics
        case None => CheckResult(Resolved, [])
        case Some(ds) =>
          if |ds| == 0 then CheckResult(Resolved, [])
          else match inputs.source
            case None => CheckResult(Resolved, [])
            case Some(fromIndex) =>
              var emitted := Emit(ds, fromIndex);
              if emitted.threw then CheckResult(Resolved, emitted.annotations)
              else CheckResult(Rejected(Reason(|ds|, mainSourceFile)), emitted.annotations)
  }

  // ----- properties of the loop -----

  /** On a list without malformed entries the loop runs piecewise: this and
      `EmitSingle` fix the printed annotations and their order. */
  lemma {:induction false} EmitAppend(a: seq<Diagnostic>, b: seq<Diagnostic>, fromIndex: Resolver)
    requires WellFormed(a)
    ensures Emit(a + b, fromIndex)
         == Emission(Emit(a, fromIndex).annotations + Emit(b, fromIndex).annotations, Emit(b, fromIndex).threw)
    decreases |a|
  {
    if |a| == 0 {
      assert a + b == b;
    } else {
      assert (a + b)[0] == a[0];
      assert (a + b)[1..] == a[1..] + b;
      assert WellFormed(a[1..]) by {
        assert forall i :: 0 <= i < |a[1..]| ==> a[1..][i] == a[i + 1];
      }
      EmitAppend(a[1..], b, fromIndex);
    }
  }

  lemma EmitSingle(d: Diagnostic, fromIndex: Resolver)
    ensures Emit([d], fromIndex).threw <==> d.diagnosticMessage.None?
    ensures forall a :: a in Emit([d], fromIndex).annotations <==> Yields(d, fromIndex, a)
    ensures |Emit([d], fromIndex).annotations| <= 1
  {
    assert [d][1..] == [];
  }

  /** Every resolving entry of a well-formed list is printed. */
  lemma {:induction false} EmitComplete(ds: seq<Diagnostic>, fromIndex: Resolver, i: nat, a: Annotation)
    requires WellFormed(ds) && i < |ds| && Yields(ds[i], fromIndex, a)
    ensures a in Emit(ds, fromIndex).annotations
    decreases |ds|
  {
    if i > 0 {
      assert WellFormed(ds[1..]) by {
        assert forall j :: 0 <= j < |ds[1..]| ==> ds[1..][j] == ds[j + 1];
      }
      assert ds[1..][i - 1] == ds[i];
      EmitComplete(ds[1..], fromIndex, i - 1, a);
    }
  }

  /** When every offset resolves, the n entries give exactly n annotations, the
      k-th printed from the k-th entry. */
  lemma {:induction false} EmitAllResolved(ds: seq<Diagnostic>, fromIndex: Resolver)
    requires WellFormed(ds)
    requires forall i :: 0 <= i < |ds| ==> fromIndex(ds[i].diagnosticMessage.value.fileOffset).Some?
    ensures |Emit(ds, fromIndex).annotations| == |ds|
    ensures forall i :: 0 <= i < |ds| ==> Yields(ds[i], fromIndex, Emit(ds, fromIndex).annotations[i])
    decreases |ds|
  {
    if |ds| > 0 {
      var rest := ds[1..];
      assert forall i :: 0 <= i < |rest| ==> rest[i] == ds[i + 1];
      EmitAllResolved(rest, fromIndex);
      var r := Emit(ds, fromIndex).annotations;
      assert forall i :: 1 <= i < |ds| ==> r[i] == Emit(rest, fromIndex).annotations[i - 1];
    }
  }

  /** Entries whose offsets do not resolve print nothing. */
  lemma {:induction false} EmitNoneResolved(ds: seq<Diagnostic>, fromIndex: Resolver)
    requires forall i :: 0 <= i < |ds| ==>
               ds[i].diagnosticMessage.Some? ==> fromIndex(ds[i].diagnosticMessage.value.fileOffset).None?
    ensures Emit(ds, fromIndex).annotations == []
    decreases |ds|
  {
    if |ds| > 0 {
      assert forall i :: 0 <= i < |ds[1..]| ==> ds[1..][i] == ds[i + 1];
      EmitNoneResolved(ds[1..], fromIndex);
    }
  }

  /** The loop stops at the first entry without a message, keeping what the
      entries before it printed. */
  lemma {:induction false} EmitStopsAtMalformed(ds: seq<Diagnostic>, fromIndex: Resolver, k: nat)
    requires k < |ds| && ds[k].diagnosticMessage.None? && WellFormed(ds[..k])
    ensures Emit(ds, fromIndex) == Emission(Emit(ds[..k], fromIndex).annotations, true)
  {
    assert ds == ds[..k] + ds[k..];
    EmitAppend(ds[..k], ds[k..], fromIndex);
    assert ds[k..][0] == ds[k];
  }

  // ----- properties of the check -----

  /** Every degraded path resolves without printing (index.js:20-23, 30-32, 38-40,
      52-55): no export, an unparsable or null export, a missing `Diagnostics`
      field, or a source that cannot be read. */
  lemma CheckDegradesToSuccess(inputs: FileInputs)
    requires || !inputs.exportExists
             || inputs.replacements.Unparsable?
             || inputs.replacements.NullDocument?
             || (inputs.replacements.Document? && inputs.replacements.diagnostics.None?)
             || inputs.source.None?
    ensures Check(inputs) == CheckResult(Resolved, [])
  {
  }

  /** An empty `Diagnostics` list resolves without printing, whatever the source (index.js:34-35). */
  lemma CheckEmptyDiagnostics(inputs: FileInputs)
    requires inputs.replacements.Document? && inputs.replacements.diagnostics == Some([])
    ensures Check(inputs) == CheckResult(Resolved, [])
  {
  }

  /** A non-empty, well-formed export rejects with the count of all entries,
      resolved or not, and prints exactly the entries that resolve, in export
      order (the order is `Emit`'s, fixed by `EmitAppend`) (index.js:43-51). */
  lemma CheckReportsInOrder(inputs: FileInputs)
    requires Reportable(inputs) && WellFormed(inputs.replacements.diagnostics.value)
    ensures var ds := inputs.replacements.diagnostics.value;
            Check(inputs).outcome == Rejected(Reason(|ds|, inputs.replacements.mainSourceFile))
    ensures var ds := inputs.replacements.diagnostics.value;
            Check(inputs).annotations == Emit(ds, inputs.source.value).annotations
    ensures var ds := inputs.replacements.diagnostics.value;
            forall a :: a in Check(inputs).annotations <==>
              exists i :: 0 <= i < |ds| && Yields(ds[i], inputs.source.value, a)
  {
    var ds := inputs.replacements.diagnostics.value;
    forall a | exists i :: 0 <= i < |ds| && Yields(ds[i], inputs.source.value, a)
      ensures a in Check(inputs).annotations
    {
      var i :| 0 <= i < |ds| && Yields(ds[i], inputs.source.value, a);
      EmitComplete(ds, inputs.source.value, i, a);
    }
  }

  /** Unresolved entries still count: if no offset resolves, the file is rejected
      with the full count and nothing is printed. */
  lemma CheckCountsUnresolved(inputs: FileInputs)
    requires Reportable(inputs) && WellFormed(inputs.replacements.diagnostics.value)
    requires var ds := inputs.replacements.diagnostics.value;
             forall i :: 0 <= i < |ds| ==> inputs.source.value(ds[i].diagnosticMessage.value.fileOffset).None?
    ensures var ds := inputs.replacements.diagnostics.value;
            Check(inputs) == CheckResult(Rejected(Reason(|ds|, inputs.replacements.mainSourceFile)), [])
  {
    EmitNoneResolved(inputs.replacements.diagnostics.value, inputs.source.value);
  }

  /** An entry without a message throws mid-loop: the file resolves, and the
      annotations printed before that entry stay printed. */
  lemma CheckKeepsEarlierAnnotations(inputs: FileInputs, k: nat)
    requires Reportable(inputs)
    requires var ds := inputs.replacements.diagnostics.value;
             k < |ds| && ds[k].diagnosticMessage.None? && WellFormed(ds[..k])
    ensures var ds := inputs.replacements.diagnostics.value;
            Check(inputs) == CheckResult(Resolved, Emit(ds[..k], inputs.source.value).annotations)
  {
    EmitStopsAtMalformed(inputs.replacements.diagnostics.value, inputs.source.value, k);
  }
}

=== FILE: line_index.dfy ===
/** A reference offset resolver.  This is an ASSUMED CONTRACT, not code of this
    repository: index.js:7 imports the `line-column` package and calls its
    `fromIndex` (index.js:38, 45), whose source is not part of this model.  The
    check itself treats the resolver as an arbitrary `Resolver`; this module only
    shows one resolver with the behaviour the action relies on: line 1 starts at
    offset 0, a new line starts right after each `\n`, positions are 1-based, and
    offsets outside `[0, |content|)` have no position. */
module LineIndex {
  import opened Wrappers
  import opened Annotations

  function CountNewlines(s: string): nat
    decreases |s|
  {
    if |s| == 0 then 0 else CountNewlines(s[..|s| - 1]) + (if s[|s| - 1] == '\n' then 1 else 0)
  }

  /** Offset at which the last line of `s` starts. */
  function LastLineStart(s: string): (r: nat)
    ensures r <= |s|
    ensures forall j :: r <= j < |s| ==> s[j] != '\n'
    decreases |s|
  {
    if |s| == 0 then 0
    else if s[|s| - 1] == '\n' then |s|
    else LastLineStart(s[..|s| - 1])
  }

  /** `fromIndex`: the line is one more than the newlines before the offset, the
      column one more than the distance from the start of that line. */
  function FromIndex(content: string, offset: int): (r: Option<Location>)
    ensures r.Some? <==> 0 <= offset < |content|
    ensures r.Some? ==> r.value.line >= 1 && r.value.col >= 1
  {
    if offset < 0 || offset >= |content| then None
    else
      var before := content[..offset];
      Some(Location(CountNewlines(before) + 1, offset - LastLineStart(before) + 1))
  }

  /** The resolver the check is given for a readable source. */
  function ResolverOf(content: string): int -> Option<Location> {
    offset => FromIndex(content, offset)
  }

  // ----- the inverse: from a position back to an offset, scanning forward -----

  /** First newline at or after `from`, or `|content|` when there is none. */
  function NextNewline(content: string, from: nat): (r: nat)
    ensures from <= r
    decreases |content| - from
  {
    if from >= |content| then from
    else if content[from] == '\n' then from
    else NextNewline(content, from + 1)
  }

  /** Offset at which line `line` starts, counting lines from 1. */
  function LineStart(content: string, line: nat): nat
    requires line >= 1
    decreases line
  {
    if line == 1 then 0 else NextNewline(content, LineStart(content, line - 1)) + 1
  }

  function ToIndex(content: string, loc: Location): int
    requires loc.line >= 1
  {
    LineStart(content, loc.line) + loc.col - 1
  }

  lemma {:induction false} NextNewlineFinds(content: string, from: nat, t: nat)
    requires from <= t < |content| && content[t] == '\n'
    requires forall j :: from <= j < t ==> content[j] != '\n'
    ensures NextNewline(content, from) == t
    decreases t - from
  {
    if from < t {
      NextNewlineFinds(content, from + 1, t);
    }
  }

  /** The line `FromIndex` reports for an offset starts where the offset's line does. */
  lemma {:induction false} LineStartOfPrefix(content: string, o: nat)
    requires o <= |content|
    ensures LineStart(content, CountNewlines(content[..o]) + 1) == LastLineStart(content[..o])
    decreases o
  {
    if o > 0 {
      var p := content[..o];
      var p' := content[..o - 1];
      assert p[..|p| - 1] == p';
      LineStartOfPrefix(content, o - 1);
      if content[o - 1] == '\n' {
        var from := LastLineStart(p');
        assert forall j :: from <= j < o - 1 ==> content[j] == p'[j];
        NextNewlineFinds(content, from, o - 1);
      }
    }
  }

  /** Reconstructing the offset from the reported line and column gives it back,
      and no newline lies between the start of the reported line and the offset:
      the offset is on the line reported. */
  lemma ToIndexFromIndex(content: string, offset: int)
    requires 0 <= offset < |content|
    ensures ToIndex(content, FromIndex(content, offset).value) == offset
    ensures forall j :: LineStart(content, FromIndex(content, offset).value.line) <= j < offset ==>
              content[j] != '\n'
  {
    LineStartOfPrefix(content, offset);
    var before := content[..offset];
    assert forall j :: LastLineStart(before) <= j < offset ==> before[j] == content[j];
  }

  /** In `"int x;\nint y;\n"` the `y` at offset 11 is on line 2, column 5, and
      the end of the content has no position. */
  lemma FromIndexExample()
    ensures FromIndex("int x;\nint y;\n", 11) == Some(Location(2, 5))
    ensures FromIndex("int x;\nint y;\n", 7) == Some(Location(2, 1))
    ensures FromIndex("int x;\nint y;\n", 14) == None
  {
    var c := "int x;\nint y;\n";
    assert c[..11] == "int x;\nint " && c[..7] == "int x;\n";
    assert "int x;\nint "[..10] == "int x;\nint";
    assert "int x;\nint"[..9] == "int x;\nin";
    assert "int x;\nin"[..8] == "int x;\ni";
    assert "int x;\ni"[..7] == "int x;\n";
    assert "int x;\n"[..6] == "int x;";
    assert "int x;"[..5] == "int x";
    assert "int x"[..4] == "int ";
    assert "int "[..3] == "int";
    assert "int"[..2] == "in";
    assert "in"[..1] == "i";
    assert "i"[..0] == "";
  }
}

=== FILE: run.dfy ===
/** The whole run (`tidy` and `main`, index.js:78-93): one check per changed
    source, collected with `Promise.all`, and the run's verdict.

    Each `check` runs its promise executor to completion before returning, so
    the files are checked, and their annotations printed, one after another in
    list order.  The promises `Promise.all` receives are those the `async`
    wrappers return; each settles a few microtasks later, after the one before
    it in the list, so `Promise.all` rejects with the reason of the first
    rejected one in list order. */
module Run {
  import opened Wrappers
  import opened Text
  import opened Annotations
  import opened ChangedFiles
  import opened FileCheck

  /** What the file system holds for each path (export, parse result, source). */
  type Workspace = string -> FileInputs

  /** How `Promise.all` settles: `done` is printed, or the run is marked failed
      after printing the first rejection's reason. */
  datatype RunOutcome = Done | Failed(reason: string)

  /** Everything the run prints, in order, and how it ends. */
  datatype RunResult = RunResult(log: seq<string>, outcome: RunOutcome)

  const ResolvedCheck := CheckResult(Resolved, [])

  /** `tidy` (index.js:78-83): one check per file, or a single already-resolved
      promise for an empty list. */
  function Tidy(files: seq<string>, ws: Workspace): (r: seq<CheckResult>)
    ensures |r| == if |files| == 0 then 1 else |files|
    ensures |files| == 0 ==> r[0].outcome.Resolved? && r[0].annotations == []
    ensures forall i :: 0 <= i < |files| ==> r[i] == Check(ws(files[i]))
  {
    if |files| == 0 then [ResolvedCheck]
    else seq(|files|, i requires 0 <= i < |files| => Check(ws(files[i])))
  }

  /** `Promise.all(...).then(...).catch(...)` (index.js:87-92). */
  function Reduce(results: seq<CheckResult>): (r: RunOutcome)
    ensures r.Done? <==> forall i :: 0 <= i < |results| ==> results[i].outcome.Resolved?
    ensures r.Failed? ==>
              exists k :: && 0 <= k < |results|
                          && results[k].outcome == Rejected(r.reason)
                          && (forall j :: 0 <= j < k ==> results[j].outcome.Resolved?)
    decreases |results|
  {
    if |results| == 0 then Done
    else match results[0].outcome
      case Rejected(reason) => Failed(reason)
      case Resolved =>
        var r := Reduce(results[1..]);
        assert forall i :: 1 <= i < |results| ==> results[i] == results[1..][i - 1];
        if r.Failed? then
          var k :| 0 <= k < |results[1..]| && results[1..][k].outcome == Rejected(r.reason)
                   && forall j :: 0 <= j < k ==> results[1..][j].outcome.Resolved?;
          assert results[k + 1] == results[1..][k];
          r
        else r
  }

  /** The lines the checks print, file after file, each file's in its own order:
      every annotation's line, and nothing that is not some annotation's line. */
  function Printed(results: seq<CheckResult>): (lines: seq<string>)
    ensures forall i, a :: 0 <= i < |results| && a in results[i].annotations ==> Format(a) in lines
    ensures forall l :: l in lines ==>
              exists i, a :: 0 <= i < |results| && a in results[i].annotations && l == Format(a)
    decreases |results|
  {
    if |results| == 0 then []
    else
      var first := Formatted(results[0].annotations);
      var rest := Printed(results[1..]);
      assert forall i :: 1 <= i < |results| ==> results[i] == results[1..][i - 1];
      FormattedIn(results[0].annotations);
      assert forall l :: l in first + rest ==>
               exists i, a :: 0 <= i < |results| && a in results[i].annotations && l == Format(a) by {
        forall l | l in first + rest
          ensures exists i, a :: 0 <= i < |results| && a in results[i].annotations && l == Format(a)
        {
          if l in rest {
            var i, a :| 0 <= i < |results[1..]| && a in results[1..][i].annotations && l == Format(a);
            assert a in results[i + 1].annotations;
          } else {
            var k :| 0 <= k < |first| && first[k] == l;
            assert results[0].annotations[k] in results[0].annotations;
          }
        }
      }
      first + rest
  }

  function Formatted(anns: seq<Annotation>): (lines: seq<string>)
    ensures |lines| == |anns|
    ensures forall k :: 0 <= k < |anns| ==> lines[k] == Format(anns[k])
  {
    seq(|anns|, k requires 0 <= k < |anns| => Format(anns[k]))
  }

  lemma FormattedIn(anns: seq<Annotation>)
    ensures forall a :: a in anns ==> Format(a) in Formatted(anns)
  {
    forall a | a in anns
      ensures Format(a) in Formatted(anns)
    {
      var k :| 0 <= k < |anns| && anns[k] == a;
      assert Formatted(anns)[k] == Format(a);
    }
  }

  /** `line` is the line of an annotation the check of one of `files` prints. */
  predicate AnnotationOf(files: seq<string>, ws: Workspace, line: string) {
    exists f, a :: f in files && a in Check(ws(f)).annotations && line == Format(a)
  }

  /** `main` given the list `changed` returned (index.js:85-93). */
  function Main(files: seq<string>, ws: Workspace): (r: RunResult)
    ensures r.outcome.Done? <==> forall f :: f in files ==> Check(ws(f)).outcome.Resolved?
    ensures |r.log| >= 1 && (r.outcome.Done? <==> r.log[|r.log| - 1] == "done")
    ensures r.log[..|r.log| - 1] == Printed(Tidy(files, ws))
    ensures forall f, a :: f in files && a in Check(ws(f)).annotations ==> Format(a) in r.log
    ensures forall k :: 0 <= k < |r.log| - 1 ==> AnnotationOf(files, ws, r.log[k])
    ensures r.outcome.Failed? ==> r.log[|r.log| - 1] == r.outcome.reason
    ensures r.outcome.Failed? ==>
              exists i :: && 0 <= i < |files|
                          && Check(ws(files[i])).outcome == Rejected(r.outcome.reason)
                          && forall j :: 0 <= j < i ==> Check(ws(files[j])).outcome.Resolved?
  {
    var results := Tidy(files, ws);
    var outcome := Reduce(results);
    var last := match outcome
      case Done => "done"
      case Failed(reason) => reason;
    RejectionIsNotDone(files, ws);
    TidyPrintsChecks(files, ws);
    TidyFailsAtFirst(files, ws);
    LogLines(Printed(results), last);
    RunResult(Printed(results) + [last], outcome)
  }

  /** The run's log is the checks' lines followed by one closing line. */
  lemma LogLines(printed: seq<string>, last: string)
    ensures (printed + [last])[..|printed|] == printed
    ensures (printed + [last])[|printed|] == last
    ensures forall l :: l in printed ==> l in printed + [last]
    ensures forall k :: 0 <= k < |printed| ==> (printed + [last])[k] in printed
  {
    forall k | 0 <= k < |printed|
      ensures (printed + [last])[k] in printed
    {
      assert (printed + [last])[k] == printed[k];
    }
  }

  /** The checks' output is exactly the lines of the files' annotations. */
  lemma TidyPrintsChecks(files: seq<string>, ws: Workspace)
    ensures forall f, a :: f in files && a in Check(ws(f)).annotations ==> Format(a) in Printed(Tidy(files, ws))
    ensures forall l :: l in Printed(Tidy(files, ws)) ==> AnnotationOf(files, ws, l)
  {
    var results := Tidy(files, ws);
    forall f, a | f in files && a in Check(ws(f)).annotations
      ensures Format(a) in Printed(results)
    {
      var i :| 0 <= i < |files| && files[i] == f;
      assert a in results[i].annotations;
    }
    forall l | l in Printed(results)
      ensures AnnotationOf(files, ws, l)
    {
      var i, a :| 0 <= i < |results| && a in results[i].annotations && l == Format(a);
      assert files[i] in files && results[i] == Check(ws(files[i]));
    }
  }

  /** A failed run carries the reason of the first file whose check rejects. */
  lemma TidyFailsAtFirst(files: seq<string>, ws: Workspace)
    ensures Reduce(Tidy(files, ws)).Failed? ==>
              exists i :: && 0 <= i < |files|
                          && Check(ws(files[i])).outcome == Rejected(Reduce(Tidy(files, ws)).reason)
                          && forall j :: 0 <= j < i ==> Check(ws(files[j])).outcome.Resolved?
  {
    var results := Tidy(files, ws);
    if Reduce(results).Failed? {
      var k :| && 0 <= k < |results|
               && results[k].outcome == Rejected(Reduce(results).reason)
               && (forall j :: 0 <= j < k ==> results[j].outcome.Resolved?);
      assert |files| > 0;
      assert results[k] == Check(ws(files[k]));
      assert forall j :: 0 <= j < k ==> results[j] == Check(ws(files[j]));
    }
  }

  lemma RejectionIsNotDone(files: seq<string>, ws: Workspace)
    ensures Reduce(Tidy(files, ws)).Failed? ==> Reduce(Tidy(files, ws)).reason != "done"
  {
    var results := Tidy(files, ws);
    var outcome := Reduce(results);
    if outcome.Failed? {
      var k :| 0 <= k < |results| && results[k].outcome == Rejected(outcome.reason);
      assert results[k] == Check(ws(files[k]));
      ReasonIsNotDone(outcome.reason);
    }
  }

  /** A rejection message never reads `done`: it starts with the issue count. */
  lemma ReasonIsNotDone(reason: string)
    requires ParseReason(reason).Some?
    ensures reason != "done"
  {
    assert IsDigit(reason[..LeadingDigits(reason)][0]);
  }

  /** With nothing to lint the run consists of one resolved promise: it prints
      `done` and nothing else (index.js:80-81, 87-88). */
  lemma MainWithoutFiles(ws: Workspace)
    ensures Main([], ws) == RunResult(["done"], Done)
  {
    var results := Tidy([], ws);
    assert results == [ResolvedCheck];
    assert results[1..] == [];
    assert Printed(results) == [];
  }

  /** The lines of several checks are the lines of each, in list order. */
  lemma {:induction false} PrintedAppend(a: seq<CheckResult>, b: seq<CheckResult>)
    ensures Printed(a + b) == Printed(a) + Printed(b)
    decreases |a|
  {
    if |a| == 0 {
      assert a + b == b;
    } else {
      assert (a + b)[0] == a[0];
      assert (a + b)[1..] == a[1..] + b;
      PrintedAppend(a[1..], b);
    }
  }

  /** One check is printed as its own annotations' lines, in order; with
      `PrintedAppend` this fixes the whole output of the checks. */
  lemma PrintedSingle(c: CheckResult)
    ensures Printed([c]) == Formatted(c.annotations)
  {
    assert [c][1..] == [];
  }

  /** The run over the changed entries the filter keeps, for a given set of
      excluded statuses (index.js:69-92). */
  function Lint(entries: seq<ChangedFile>, excluded: set<string>, ws: Workspace): (r: RunResult)
    ensures r.outcome.Done? <==>
              forall i :: 0 <= i < |entries| && Selected(entries[i], excluded) ==>
                Check(ws(entries[i].filename)).outcome.Resolved?
  {
    SelectMembers(entries, excluded);
    Main(Select(entries, excluded), ws)
  }

  /** The action as written: only "deleted" entries are dropped. */
  function ActionAsWritten(entries: seq<ChangedFile>, ws: Workspace): (r: RunResult)
    ensures r.outcome.Done? <==>
              forall i :: 0 <= i < |entries| && entries[i].status != "deleted" && IsSourceName(entries[i].filename) ==>
                Check(ws(entries[i].filename)).outcome.Resolved?
  {
    Lint(entries, AsWrittenExcluded, ws)
  }

  /** The action with the corrected filter: "deleted" and "removed" entries are dropped. */
  function Action(entries: seq<ChangedFile>, ws: Workspace): (r: RunResult)
    ensures r.outcome.Done? <==>
              forall i :: && 0 <= i < |entries| && entries[i].status != "deleted"
                          && entries[i].status != "removed" && IsSourceName(entries[i].filename) ==>
                Check(ws(entries[i].filename)).outcome.Resolved?
  {
    Lint(entries, Excluded, ws)
  }

  /** Entries the filter drops (excluded statuses, other extensions) change
      nothing: they are never checked. */
  lemma LintIgnoresUnselected(entries: seq<ChangedFile>, excluded: set<string>, e: ChangedFile, ws: Workspace)
    requires !Selected(e, excluded)
    ensures Lint(entries + [e], excluded, ws) == Lint(entries, excluded, ws)
  {
    SelectAppend(entries, [e], excluded);
    SelectSingle(e, excluded);
    assert Select(entries + [e], excluded) == Select(entries, excluded);
  }

  /** A change without lintable sources passes without a single check. */
  lemma LintWithoutSources(entries: seq<ChangedFile>, excluded: set<string>, ws: Workspace)
    requires forall i :: 0 <= i < |entries| ==> !Selected(entries[i], excluded)
    ensures Lint(entries, excluded, ws) == RunResult(["done"], Done)
  {
    assert Select(entries, excluded) == [] by {
      if Select(entries, excluded) != [] {
        SelectMembership(entries, excluded, Select(entries, excluded)[0]);
      }
    }
    MainWithoutFiles(ws);
  }

  /** A workspace in which every file, the deleted ones included, is still
      readable and has an export with one diagnostic, at an offset the source
      does not resolve: for instance a checkout that still holds the files
      and exports from an earlier run. */
  function StaleExports(): Workspace {
    f => FileInputs(true, Document(f, Some([Diagnostic(Some(DiagnosticMessage(f, 0, "stale")))])),
                    Some(offset => None))
  }

  /** A deleted `a.cpp`, listed as "removed", fails the run as written when the
      file is still readable and an export is left for it, while the corrected
      action passes. */
  lemma RemovedSourceFailsRun()
    ensures ActionAsWritten([ChangedFile("a.cpp", "removed")], StaleExports()).outcome.Failed?
    ensures Action([ChangedFile("a.cpp", "removed")], StaleExports()).outcome.Done?
  {
    var e := ChangedFile("a.cpp", "removed");
    RemovedSourceIsLinted();
    assert [e][0] == e;
    assert Check(StaleExports()("a.cpp")).outcome.Rejected?;
  }

  // ----- when the deleted files cannot be read, the two filters give the same run -----

  /** One check per file, with no stand-in for the empty list. */
  function Checks(files: seq<string>, ws: Workspace): (r: seq<CheckResult>)
    ensures |r| == |files|
    ensures forall i :: 0 <= i < |files| ==> r[i] == Check(ws(files[i]))
  {
    seq(|files|, i requires 0 <= i < |files| => Check(ws(files[i])))
  }

  lemma ChecksAppend(a: seq<string>, b: seq<string>, ws: Workspace)
    ensures Checks(a + b, ws) == Checks(a, ws) + Checks(b, ws)
  {
  }

  /** `Promise.all` over a concatenation: the first part's rejection, if any,
      else the second part's outcome. */
  lemma {:induction false} ReduceAppend(a: seq<CheckResult>, b: seq<CheckResult>)
    ensures Reduce(a + b) == if Reduce(a).Failed? then Reduce(a) else Reduce(b)
    decreases |a|
  {
    if |a| == 0 {
      assert a + b == b;
    } else {
      assert (a + b)[0] == a[0];
      assert (a + b)[1..] == a[1..] + b;
      ReduceAppend(a[1..], b);
    }
  }

  /** The stand-in for an empty list prints nothing and resolves, like no check at all. */
  lemma TidyLikeChecks(files: seq<string>, ws: Workspace)
    ensures Printed(Tidy(files, ws)) == Printed(Checks(files, ws))
    ensures Reduce(Tidy(files, ws)) == Reduce(Checks(files, ws))
  {
    if |files| == 0 {
      PrintedSingle(ResolvedCheck);
      assert [ResolvedCheck][1..] == [];
    } else {
      assert Tidy(files, ws) == Checks(files, ws);
    }
  }

  /** The entries whose deleted files the workspace cannot read. */
  predicate RemovedUnreadable(entries: seq<ChangedFile>, ws: Workspace) {
    forall i :: 0 <= i < |entries| && entries[i].status == "removed" ==> ws(entries[i].filename).source.None?
  }

  /** The checks of a filtered list split at its first entry. */
  lemma SelectChecksCons(e: ChangedFile, rest: seq<ChangedFile>, excluded: set<string>, ws: Workspace)
    ensures var head := Checks(Select([e], excluded), ws);
            var tail := Checks(Select(rest, excluded), ws);
            && Printed(Checks(Select([e] + rest, excluded), ws)) == Printed(head) + Printed(tail)
            && Reduce(Checks(Select([e] + rest, excluded), ws))
               == if Reduce(head).Failed? then Reduce(head) else Reduce(tail)
  {
    var head := Select([e], excluded);
    var tail := Select(rest, excluded);
    SelectAppend([e], rest, excluded);
    ChecksAppend(head, tail, ws);
    PrintedAppend(Checks(head, ws), Checks(tail, ws));
    ReduceAppend(Checks(head, ws), Checks(tail, ws));
  }

  /** Checking an unreadable file prints nothing and resolves. */
  lemma UnreadableCheck(f: string, ws: Workspace)
    requires ws(f).source.None?
    ensures Printed(Checks([f], ws)) == [] && Reduce(Checks([f], ws)) == Done
  {
    var c := Check(ws(f));
    assert c == CheckResult(Resolved, []);
    assert Checks([f], ws) == [c];
    PrintedSingle(c);
    assert [c][1..] == [];
  }

  /** For one entry the two filters differ only on a "removed" source, whose
      check, when unreadable, prints nothing and resolves. */
  lemma HeadChecksAgree(e: ChangedFile, ws: Workspace)
    requires e.status == "removed" ==> ws(e.filename).source.None?
    ensures Printed(Checks(Select([e], AsWrittenExcluded), ws)) == Printed(Checks(Select([e], Excluded), ws))
    ensures Reduce(Checks(Select([e], AsWrittenExcluded), ws)) == Reduce(Checks(Select([e], Excluded), ws))
  {
    SelectSingle(e, AsWrittenExcluded);
    SelectSingle(e, Excluded);
    if Select([e], AsWrittenExcluded) != Select([e], Excluded) {
      UnreadableCheck(e.filename, ws);
      assert Checks(Select([e], Excluded), ws) == [];
    }
  }

  /** Checking an unreadable file adds nothing to the output or the verdict. */
  lemma {:induction false} FiltersGiveSameChecks(entries: seq<ChangedFile>, ws: Workspace)
    requires RemovedUnreadable(entries, ws)
    ensures Printed(Checks(Select(entries, AsWrittenExcluded), ws)) == Printed(Checks(Select(entries, Excluded), ws))
    ensures Reduce(Checks(Select(entries, AsWrittenExcluded), ws)) == Reduce(Checks(Select(entries, Excluded), ws))
    decreases |entries|
  {
    if |entries| > 0 {
      var e := entries[0];
      var rest := entries[1..];
      assert RemovedUnreadable(rest, ws) by {
        assert forall i :: 0 <= i < |rest| ==> rest[i] == entries[i + 1];
      }
      FiltersGiveSameChecks(rest, ws);
      HeadChecksAgree(e, ws);
      assert entries == [e] + rest;
      SelectChecksCons(e, rest, AsWrittenExcluded, ws);
      SelectChecksCons(e, rest, Excluded, ws);
    }
  }

  /** When the files the pull request deleted are gone from the workspace, the
      filter as written costs only clang-tidy runs: the run is the corrected one. */
  lemma AsWrittenMatchesCorrected(entries: seq<ChangedFile>, ws: Workspace)
    requires RemovedUnreadable(entries, ws)
    ensures ActionAsWritten(entries, ws) == Action(entries, ws)
  {
    FiltersGiveSameChecks(entries, ws);
    TidyLikeChecks(Select(entries, AsWrittenExcluded), ws);
    TidyLikeChecks(Select(entries, Excluded), ws);
  }
}

=== FILE: scenarios.dfy ===
/** Worked runs of the model on concrete inputs, with the reference resolver of
    `LineIndex` standing in for the `line-column` package. */
module Scenarios {
  import opened Wrappers
  import opened Text
  import opened Annotations
  import opened FileCheck
  import opened LineIndex

  const Source := "int x;\nint y;\n"

  /** Two diagnostics, the second at an offset past the end of the source. */
  function TwoIssues(): FileInputs {
    FileInputs(
      true,
      Document("a.cpp", Some([
        Diagnostic(Some(DiagnosticMessage("a.cpp", 11, "unused variable 'y'"))),
        Diagnostic(Some(DiagnosticMessage("a.cpp", 99, "stale offset")))])),
      Some(ResolverOf(Source)))
  }

  /** Only the resolvable diagnostic is printed, at line 2, column 5; the file is
      rejected as having 2 issues, the unresolvable one included. */
  lemma TwoIssuesScenario()
    ensures Check(TwoIssues()).annotations == [Annotation("a.cpp", 2, 5, "unused variable 'y'")]
    ensures Format(Check(TwoIssues()).annotations[0]) == "::warning file=a.cpp,line=2,col=5::unused variable 'y'"
    ensures Check(TwoIssues()).outcome == Rejected("2 issues detected in a.cpp")
  {
    FromIndexExample();
    var ds := TwoIssues().replacements.diagnostics.value;
    var f := ResolverOf(Source);
    assert f(11) == Some(Location(2, 5));
    assert f(99) == None;
    assert ds[1..][1..] == [];
    assert Emit(ds, f).annotations == [Annotation("a.cpp", 2, 5, "unused variable 'y'")];
    FormatExample();
    ReasonExample();
  }

  lemma FormatExample()
    ensures Format(Annotation("a.cpp", 2, 5, "unused variable 'y'"))
         == "::warning file=a.cpp,line=2,col=5::unused variable 'y'"
  {
    SmallNumbers();
    var s := Prefix + "a.cpp" + ",line=";
    assert s == "::warning file=a.cpp,line=";
    s := s + "2" + ",col=";
    assert s == "::warning file=a.cpp,line=2,col=";
    s := s + "5" + "::";
    assert s == "::warning file=a.cpp,line=2,col=5::";
    assert s + "unused variable 'y'" == "::warning file=a.cpp,line=2,col=5::unused variable 'y'";
  }

  lemma ReasonExample()
    ensures Reason(2, "a.cpp") == "2 issues detected in a.cpp"
  {
    SmallNumbers();
    assert "2" + IssuesDetectedIn + "a.cpp" == "2 issues detected in a.cpp";
    assert Reason(2, "a.cpp") == NatToString(2) + IssuesDetectedIn + "a.cpp";
  }

  lemma SmallNumbers()
    ensures NatToString(2) == "2" && IntToString(2) == "2" && IntToString(5) == "5"
  {
    assert DigitChar(2) == '2';
    assert DigitChar(5) == '5';
  }

  /** The same export with the second entry lacking its message: the first
      annotation is already printed when the loop throws, and the file resolves. */
  lemma MalformedSecondEntryScenario()
    ensures var inputs := FileInputs(
              true,
              Document("a.cpp", Some([
                Diagnostic(Some(DiagnosticMessage("a.cpp", 11, "unused variable 'y'"))),
                Diagnostic(None)])),
              Some(ResolverOf(Source)));
            Check(inputs) == CheckResult(Resolved, [Annotation("a.cpp", 2, 5, "unused variable 'y'")])
  {
    FromIndexExample();
    assert ResolverOf(Source)(11) == Some(Location(2, 5));
  }

  /** A diagnostic clang-tidy reports in a header is still positioned in the
      checked source: the annotation names `a.h` but carries the line and column
      that offset 11 has in `a.cpp`'s content. */
  lemma HeaderDiagnosticScenario()
    ensures var inputs := FileInputs(
              true,
              Document("a.cpp", Some([Diagnostic(Some(DiagnosticMessage("a.h", 11, "in header")))])),
              Some(ResolverOf(Source)));
            Check(inputs) == CheckResult(Rejected(Reason(1, "a.cpp")), [Annotation("a.h", 2, 5, "in header")])
  {
    FromIndexExample();
    assert ResolverOf(Source)(11) == Some(Location(2, 5));
  }
}

=== FILE: text.dfy ===
/** String helpers used by the action: suffix tests (JavaScript's
    `String.prototype.endsWith`) and the decimal rendering a template literal
    gives a number, together with the parser that inverts that rendering. */
module Text {
  import opened Wrappers

  predicate StartsWith(s: string, prefix: string) {
    |prefix| <= |s| && s[..|prefix|] == prefix
  }

  /** `s.endsWith(suffix)` */
  predicate EndsWith(s: string, suffix: string) {
    |suffix| <= |s| && s[|s| - |suffix|..] == suffix
  }

  predicate IsDigit(c: char) {
    '0' <= c <= '9'
  }

  predicate AllDigits(s: string) {
    forall i :: 0 <= i < |s| ==> IsDigit(s[i])
  }

  function DigitValue(c: char): (d: nat)
    requires IsDigit(c)
    ensures d < 10
  {
    (c as int) - ('0' as int)
  }

  function DigitChar(d: nat): (c: char)
    requires d < 10
    ensures IsDigit(c) && DigitValue(c) == d
  {
    (('0' as int) + d) as char
  }

  /** A digit string in the form `NatToString` produces: non-empty, no leading zero. */
  predicate Canonical(s: string) {
    |s| >= 1 && AllDigits(s) && (s[0] == '0' ==> |s| == 1)
  }

  /** Decimal rendering of a natural number, as `${n}` produces it. */
  function NatToString(n: nat): (s: string)
    ensures Canonical(s)
    ensures s[0] == '0' ==> n == 0
    decreases n
  {
    if n < 10 then [DigitChar(n)] else NatToString(n / 10) + [DigitChar(n % 10)]
  }

  /** The value of a string of decimal digits (the empty string reads as 0). */
  function ParseNat(s: string): nat
    requires AllDigits(s)
    decreases |s|
  {
    if |s| == 0 then 0 else ParseNat(s[..|s| - 1]) * 10 + DigitValue(s[|s| - 1])
  }

  lemma {:induction false} ParseNatOfNatToString(n: nat)
    ensures ParseNat(NatToString(n)) == n
    decreases n
  {
    var s := NatToString(n);
    if n < 10 {
      assert s[..|s| - 1] == [];
    } else {
      ParseNatOfNatToString(n / 10);
      assert s[..|s| - 1] == NatToString(n / 10);
    }
  }

  lemma {:induction false} ParseNatPositive(s: string)
    requires Canonical(s) && s[0] != '0'
    ensures ParseNat(s) >= 1
    decreases |s|
  {
    if |s| > 1 {
      var p := s[..|s| - 1];
      assert p[0] == s[0];
      ParseNatPositive(p);
    }
  }

  /** Together with `ParseNatOfNatToString`: `NatToString` is a bijection
      between the naturals and the canonical digit strings. */
  lemma {:induction false} NatToStringOfParseNat(s: string)
    requires Canonical(s)
    ensures NatToString(ParseNat(s)) == s
    decreases |s|
  {
    var n := ParseNat(s);
    var p := s[..|s| - 1];
    var d := DigitValue(s[|s| - 1]);
    if |s| == 1 {
      assert p == [];
      assert ParseNat(p) == 0;
      assert n == ParseNat(p) * 10 + d;
      assert (DigitChar(d) as int) == (s[0] as int);
      assert DigitChar(d) == s[0];
    } else {
      assert p[0] == s[0];
      ParseNatPositive(p);
      NatToStringOfParseNat(p);
      assert n / 10 == ParseNat(p) && n % 10 == d;
      assert (DigitChar(d) as int) == (s[|s| - 1] as int);
      assert DigitChar(d) == s[|s| - 1];
      assert s == p + [s[|s| - 1]];
    }
  }

  /** Decimal rendering of an integer: a minus sign for negatives. */
  function IntToString(i: int): (s: string)
    ensures |s| >= 1
    ensures forall k :: 0 <= k < |s| ==> IsDigit(s[k]) || s[k] == '-'
  {
    if i < 0 then "-" + NatToString(-i) else NatToString(i)
  }

  /** Reads back an optional minus sign followed by digits; anything else is `None`. */
  function ParseInt(s: string): Option<int> {
    if |s| > 0 && s[0] == '-' then
      if |s| > 1 && AllDigits(s[1..]) then var v: int := ParseNat(s[1..]); Some(-v) else None
    else if |s| > 0 && AllDigits(s) then Some(ParseNat(s))
    else None
  }

  lemma ParseIntOfIntToString(i: int)
    ensures ParseInt(IntToString(i)) == Some(i)
  {
    var s := IntToString(i);
    if i < 0 {
      assert s[1..] == NatToString(-i);
      ParseNatOfNatToString(-i);
    } else {
      ParseNatOfNatToString(i);
    }
  }

  /** Index of the first `c` in `s`, or `|s|` when there is none. */
  function IndexOf(s: string, c: char): (r: nat)
    ensures r <= |s|
    ensures r < |s| ==> s[r] == c
    ensures forall k :: 0 <= k < r ==> s[k] != c
    decreases |s|
  {
    if |s| == 0 then 0 else if s[0] == c then 0 else 1 + IndexOf(s[1..], c)
  }

  lemma IndexOfSplit(a: string, c: char, b: string)
    requires c !in a && |b| > 0 && b[0] == c
    ensures IndexOf(a + b, c) == |a|
    ensures (a + b)[..|a|] == a && (a + b)[|a|..] == b
  {
    var s := a + b;
    var r := IndexOf(s, c);
    assert s[|a|] == c;
  }

  /** Length of the longest run of digits at the front of `s`. */
  function LeadingDigits(s: string): (r: nat)
    ensures r <= |s| && AllDigits(s[..r])
    ensures r < |s| ==> !IsDigit(s[r])
    decreases |s|
  {
    if |s| == 0 || !IsDigit(s[0]) then 0 else 1 + LeadingDigits(s[1..])
  }

  lemma {:induction false} LeadingDigitsSplit(d: string, t: string)
    requires AllDigits(d) && |t| > 0 && !IsDigit(t[0])
    ensures LeadingDigits(d + t) == |d|
    decreases |d|
  {
    if |d| > 0 {
      assert (d + t)[1..] == d[1..] + t;
      LeadingDigitsSplit(d[1..], t);
    } else {
      assert d + t == t;
    }
  }
}

=== FILE: wrappers.dfy ===
/** The optional-value datatype shared by the other modules: JavaScript's
    `null`/`undefined` results and absent fields are `None`. */
module Wrappers {

  datatype Option<+T> = None | Some(value: T)
}
